=== FILE: README.md ===
# Account statement: data shaping before rendering

This project is a Dafny model of the pure logic in the account-statement
service's POST handler. The handler turns a JSON payload into a PDF statement.
Before the statement template is rendered, the handler does three things that
the model covers:

- **Transaction normaliser.** Each vault, float and plans transaction record is
  copied. Its `desc` is lower-cased, or becomes `""` when missing or falsy. Its
  `created_at` is cut at the first `T`. `credit` or `debit` is set to
  `"₦" + amount` according to `description`; the other one is set to `null`.
  A record whose `created_at` cannot be split throws a TypeError, and that
  aborts the whole request.
- **Context assembler.** It builds the render context from `req.body.data`.
  `user_details` and `account_details` default to `{}`. The dates pass
  through. Each transaction list is normalised on its own and defaults to `[]`.
- **Template helpers.** `round(n)` is `Math.round(n) / 100`. `ifCond(v1, v2)`
  picks the `fn` block exactly when `v1 > v2`.

Payload values are JSON values (`Js.Value`). A record or a normalised entry is a
JavaScript object, `map<string, Value>`. The spread `{...x, desc, …}` is
therefore a map override, and "every other field is copied" is a statement
about the map. A number is kept as the text JavaScript prints for it. A missing
property is `None`. The TypeErrors that building the context can raise are
`Js.Fault` values: reading a property of undefined or null, calling a method
the value lacks, and converting an object that has its own `toString` key,
returned in JavaScript evaluation order: `desc` before `created_at`, the first
failing record of a list, and the vault list before float before plans.

Modules: `Wrappers` (Option, Result), `Text` (lower-casing, split),
`Js` (values, property reads, truthiness, template-literal text),
`Transactions` (the normaliser), `Context` (the assembler),
`Helpers` (`round`, `ifCond`), and `Request` (the handler's control flow, with
the browser, template and PDF stages as parameters).

Three behaviours of `index.js` worth stating plainly:
- `round(99)` is `0.99`: the helper divides by 100 after rounding
  (index.js:14).
- `credit` and `debit` are always present. The one that does not apply is
  `null` (index.js:78-79).
- The normaliser can throw. A record without a string `created_at`
  (index.js:77) aborts the request with the error response (index.js:112-113).
  So does a credit or debit record whose `amount` cannot be converted to text
  (index.js:78-79).

## Model

| member | source | states |
|---|---|---|
| Text.Lower | index.js:76 | `toLowerCase` keeps the length and lower-cases each character position by position |
| Text.LowerProperties | index.js:76 | lower-cased text has no upper-case letter, other characters are unchanged, and lower-casing twice is the same as once |
| Text.BeforeFirst | index.js:77 | the result is a prefix of the input with no `T`, followed in the input by a `T` unless it is the whole input |
| Text.BeforeFirstUnique | index.js:77 | any prefix with those three properties is the cut text, so they define it |
| Text.Split | index.js:77 | `split("T")` gives at least one piece, none containing `T`, and piece 0 is the text before the first `T` |
| Text.SplitJoin | index.js:77 | joining the pieces of a split with `T` gives back the original string |
| Text.DatePartOfDateTime | index.js:77 | for `date + "T" + time` with no `T` in the date, piece 0 is the date |
| Js.Show | index.js:78-79 | `${v}` throws "cannot convert object to primitive value" exactly when `v` is an object with its own `toString` key, or an array that holds such an object at any depth of nested arrays, and otherwise succeeds; null prints `null`, a boolean `true`/`false`, a number its own text, a string itself, an object `[object Object]` and an empty array the empty string |
| Js.ShowItems | index.js:78-79 | converting an array's elements from index i succeeds exactly when each of those elements converts |
| Js.ShowItemsJoin | index.js:78-79 | from index i on, an array's text is its element texts joined with commas, a null element contributing the empty string |
| Js.ShowArrayJoin | index.js:78-79 | a non-empty convertible array prints as its element texts joined with commas, as `Array.prototype.join` does |
| Js.ShowArrayExample | index.js:78-79 | `[1, null, ["a", "b"]]` prints as `1,,a,b` |
| Transactions.Normalize | index.js:74-80 | a record normalises exactly when it is an object whose `desc` is missing, falsy or a string, whose `created_at` is a string, and whose `amount`, if the record is a credit or debit, converts to text; the keys are the record's keys plus the four derived ones; every non-derived property is copied unchanged; a null record fails reading `desc`, and an object whose `desc` is missing, falsy or a string and that has no `created_at` fails reading `split`. The body is built from `DescOf` (index.js:76), `DayOf` (index.js:77), `Signed` (index.js:78-79), which reads properties through `Js.Get`, and `Overwrite` (the object literal at index.js:74-80) |
| Transactions.CreditDebit | index.js:78-79 | `credit` is non-null exactly when `description` is `"credit"`, `debit` exactly when it is `"debit"`, and a non-null one is `"₦"` followed by the amount's text, which then converted without error |
| Transactions.UnprintableAmountFails | index.js:76-79 | an object record whose `description` is `"credit"` or `"debit"`, whose `desc` is missing, falsy or a string, whose `created_at` is a string, and whose `amount` does not convert to text fails with the conversion TypeError |
| Transactions.UnprintableAmountExample | index.js:78 | `{"description": "credit", "amount": {"toString": 1}, "created_at": "2024-01-01"}` fails with the conversion TypeError |
| Transactions.NeitherCreditNorDebit | index.js:78-79 | any other description, or none, leaves both `credit` and `debit` null |
| Transactions.CreatedAtIsDate | index.js:77 | the new `created_at` is the prefix of the original before its first `T`, or the whole original when it has no `T` |
| Transactions.DescLowered | index.js:76 | the new `desc` is `""` when the original is missing or falsy, and otherwise the original lower-cased position by position, with no upper-case letter |
| Transactions.NormalizeIdempotent | index.js:74-80 | normalising an already-normalised entry returns it unchanged |
| Transactions.NormalizeAll | index.js:74-80 | mapping over a list succeeds exactly when every record normalises; the output has the input's length and entry i is record i normalised; on failure the reported fault is that of the first failing record |
| Context.Assemble | index.js:66-97 | the context exists exactly when all three transaction lists normalise, and `startDate` and `endDate` are the payload's values passed through. The body is built from `Js.Chain` (`data?.key`, index.js:69-74), `OrEmpty` (the `{}` default, index.js:69-70) and `TransactionList` (the `?.map(...)` with its `[]` default, index.js:73-96) |
| Context.AssembleWithoutData | index.js:66-97 | a body without a `data` object yields `{}` details, undefined dates and three empty lists, and does not fail |
| Context.DetailsDefault | index.js:69-70 | `userDetails` and `accountDetails` are `{}` when the payload's value is missing or falsy, and otherwise are that value |
| Context.ListsNormalizedIndependently | index.js:73-96 | each list in the context is empty when its raw list is missing or null, and otherwise is that raw list normalised entry by entry, independently of the other two |
| Context.NonArrayListFails | index.js:74 | a transaction list that is present but neither null nor an array makes assembly fail |
| Context.MissingCreatedAtFails | index.js:73-96 | a record without `created_at` in any list makes the whole assembly fail instead of being skipped |
| Context.FirstFaultReported | index.js:73-96 | the vault list's fault is reported first, then the float list's, then the plans list's |
| Helpers.MathRound | index.js:14 | `Math.round(x)` is the integer k with k - 1/2 <= x < k + 1/2 |
| Helpers.MathRoundUnique | index.js:14 | only one integer satisfies that window, so the contract determines `Math.round` |
| Helpers.Round | index.js:13-15 | `round(n)` is a whole number of hundredths, and 100 times it is within a half of n |
| Helpers.RoundOfWhole | index.js:13-15 | a whole n maps to exactly n/100 |
| Helpers.RoundExamples | index.js:13-15 | 250 gives 2.5, 99 gives 0.99, 99.5 gives 1 and -2.5 gives -0.02 |
| Helpers.IfCondAsWritten | index.js:23-28 | the `fn` block is picked exactly when v1 > v2, and it is rendered against the module's empty `this` |
| Helpers.IfCond | index.js:23-28 | the `fn` block is picked exactly when v1 > v2, and it is rendered against the caller's context |
| Helpers.IfCondStrict | index.js:23-28 | a tie picks `inverse`; if `fn` is picked for (v1, v2) then `inverse` is picked for (v2, v1); both picking `inverse` means a tie; the as-written helper picks the same branch |
| Helpers.IfCondAsWrittenLosesContext | index.js:23-28 | in the as-written helper, the block for an entry with an `amount` is rendered against `{}`, while the corrected helper keeps the entry |
| Request.Handle | index.js:56-115 | every path is stated. A launch, render or export failure becomes the error response with its message. An assembly fault becomes the error response with that fault. An empty rendering sends no response. A successful launch, assembly, non-empty render and export return the export's base64 text. A PDF is returned only on that path |

## Findings

| source | as written | input that shows it | evidently intended | confidence | as-written member | corrected member |
|---|---|---|---|---|---|---|
| index.js:23-28 | `ifCond` is an arrow function, so `options.fn(this)` and `options.inverse(this)` pass the module's top-level `this` (an empty `module.exports`) instead of the context Handlebars calls the helper with | `ifCond 5 3` inside a row whose context is `{amount: 1000}`: the block is rendered against `{}`, so `{{amount}}` in it renders empty | a `function` helper, so that the block is rendered against the current context | medium: the context passed is certain; what it breaks depends on the template, which is not part of this model; not executed | Helpers.IfCondAsWritten, Helpers.IfCondAsWrittenLosesContext | Helpers.IfCond |

## Left out

- The Express server, routing, CORS, JSON body parsing, static files and `listen` (index.js:8-9, 32-37, 117-119): I/O plumbing. `Request.Handle` takes `req.body.data` directly.
- The headless Chromium launch, `setContent`, PDF printing and `browser.close` (index.js:58-64, 99-107): foreign process calls. They are parameters of `Request.Handle`. The browser is closed only after a successful export, so it stays open on every error path and when the rendering is empty; that leak is not modelled.
- Writing and reading the fixed `report.pdf` path, and the race between concurrent requests on it (index.js:103, 109): file I/O and concurrency. They are part of the `exportPdf` parameter.
- Base64 encoding through `Buffer` (index.js:39-42): a library call, part of the `exportPdf` parameter.
- Loading `views/index.handlebars` and compiling it (index.js:44-54): an external template engine. It is the `render` parameter of `Request.Handle`.
- The `date` helper (index.js:16-22): it depends on JavaScript `Date` parsing and the local time zone.
- The error response's body, whose `error` key is written twice (index.js:113): `Request.Handle` returns the failure itself, not its JSON form or message text.
- Js.Show: the text JavaScript prints for a number is taken as given in `Num(text)`. Number-to-string conversion is not modelled.
- Text.Lower: lower-cases only the ASCII letters A-Z. Full Unicode `toLowerCase` is not modelled.
- Transactions.Normalize: JSON values only. Functions and `undefined` values cannot occur in a parsed body. An absent `amount` is interpolated as `"undefined"`. The order of the copied keys is not modelled, because a map has no order.
- Helpers.Round: models `Math.round` over exact reals. NaN, infinities, IEEE rounding of the division and non-numeric arguments are not modelled.
- Helpers.IfCond: compares reals only. JavaScript `>` on strings or mixed types is not modelled.
- Js.Fault: records the kind of TypeError and the property or method involved, not the engine's message text.

=== FILE: context.dfy ===
/**
 * The context assembler: the object the request handler hands to the template,
 * built from the request body's `data` with defaults for whatever is missing.
 */
module Context {
  import opened Wrappers
  import opened Js
  import opened Transactions

  /** The named slots of the statement template. `None` is an undefined date. */
  datatype RenderContext = RenderContext(
    userDetails: Value,
    accountDetails: Value,
    startDate: Option<Value>,
    endDate: Option<Value>,
    vault: seq<Object>,
    float: seq<Object>,
    plans: seq<Object>)

  const EmptyObject: Value := Obj(map[])

  /** `v || {}`. */
  function OrEmpty(v: Option<Value>): Value {
    if v.Some? && Truthy(v.value) then v.value else EmptyObject
  }

  /** `v?.map(normalise) || []`: a list that is not an array has no `map`. */
  function TransactionList(v: Option<Value>): Result<seq<Object>, Fault> {
    match v
    case None => Ok([])
    case Some(Null) => Ok([])
    case Some(Arr(items)) => NormalizeAll(items)
    case Some(_) => Err(NotAFunction("map"))
  }

  /** The context built from `req.body.data` (`None` when the body has no `data`). */
  function Assemble(data: Option<Value>): (r: Result<RenderContext, Fault>)
    ensures r.Ok? <==>
              && TransactionList(Chain(data, "vault_transactions")).Ok?
              && TransactionList(Chain(data, "float_transactions")).Ok?
              && TransactionList(Chain(data, "plans_transactions")).Ok?
    ensures r.Ok? ==> r.value.startDate == Chain(data, "start_date")
    ensures r.Ok? ==> r.value.endDate == Chain(data, "end_date")
  {
    var vault :- TransactionList(Chain(data, "vault_transactions"));
    var float :- TransactionList(Chain(data, "float_transactions"));
    var plans :- TransactionList(Chain(data, "plans_transactions"));
    Ok(RenderContext(
      OrEmpty(Chain(data, "user_details")),
      OrEmpty(Chain(data, "account_details")),
      Chain(data, "start_date"),
      Chain(data, "end_date"),
      vault, float, plans))
  }

  /** `list` is what normalising the raw list `raw` produces, with absent or null meaning `[]`. */
  predicate NormalizedFrom(list: seq<Object>, raw: Option<Value>) {
    && (raw.None? || raw == Some(Null) ==> list == [])
    && (raw.Some? && raw.value.Arr? ==>
          && |list| == |raw.value.items|
          && forall i :: 0 <= i < |list| ==> Normalize(raw.value.items[i]) == Ok(list[i]))
  }

  /** A body without a usable `data` object gives empty details, undefined dates and empty lists. */
  lemma AssembleWithoutData(data: Option<Value>)
    requires data.None? || !data.value.Obj?
    ensures Assemble(data) == Ok(RenderContext(EmptyObject, EmptyObject, None, None, [], [], []))
  {
  }

  /** `user_details` and `account_details` default to `{}` when missing or falsy and are otherwise kept. */
  lemma DetailsDefault(data: Option<Value>)
    requires Assemble(data).Ok?
    ensures var c := Assemble(data).value;
            var user := Chain(data, "user_details");
            var account := Chain(data, "account_details");
            && (user.None? || !Truthy(user.value) ==> c.userDetails == EmptyObject)
            && (user.Some? && Truthy(user.value) ==> c.userDetails == user.value)
            && (account.None? || !Truthy(account.value) ==> c.accountDetails == EmptyObject)
            && (account.Some? && Truthy(account.value) ==> c.accountDetails == account.value)
  {
  }

  /** Each of the three lists is normalised on its own, by the same rule, from its own raw list. */
  lemma ListsNormalizedIndependently(data: Option<Value>)
    requires Assemble(data).Ok?
    ensures var c := Assemble(data).value;
            && NormalizedFrom(c.vault, Chain(data, "vault_transactions"))
            && NormalizedFrom(c.float, Chain(data, "float_transactions"))
            && NormalizedFrom(c.plans, Chain(data, "plans_transactions"))
  {
  }

  /** A transaction list that is present, not null and not an array aborts the request. */
  lemma NonArrayListFails(data: Option<Value>, key: string)
    requires key in {"vault_transactions", "float_transactions", "plans_transactions"}
    requires Chain(data, key).Some?
    requires !Chain(data, key).value.Null? && !Chain(data, key).value.Arr?
    ensures Assemble(data).Err?
  {
  }

  /**
   * A record without `created_at` in any of the three lists aborts the whole
   * assembly; it is never skipped.
   */
  lemma MissingCreatedAtFails(data: Option<Value>, key: string, i: nat)
    requires key in {"vault_transactions", "float_transactions", "plans_transactions"}
    requires Chain(data, key).Some? && Chain(data, key).value.Arr?
    requires i < |Chain(data, key).value.items|
    requires Chain(data, key).value.items[i].Obj?
    requires "created_at" !in Chain(data, key).value.items[i].fields
    ensures Assemble(data).Err?
  {
  }

  /** The lists are normalised vault first, then float, then plans; the first fault is the one reported. */
  lemma FirstFaultReported(data: Option<Value>)
    ensures TransactionList(Chain(data, "vault_transactions")).Err? ==>
              Assemble(data) == Err(TransactionList(Chain(data, "vault_transactions")).error)
    ensures TransactionList(Chain(data, "vault_transactions")).Ok?
            && TransactionList(Chain(data, "float_transactions")).Err? ==>
              Assemble(data) == Err(TransactionList(Chain(data, "float_transactions")).error)
    ensures TransactionList(Chain(data, "vault_transactions")).Ok?
            && TransactionList(Chain(data, "float_transactions")).Ok?
            && TransactionList(Chain(data, "plans_transactions")).Err? ==>
              Assemble(data) == Err(TransactionList(Chain(data, "plans_transactions")).error)
  {
  }
}

=== FILE: helpers.dfy ===
/**
 * The template helpers `round` and `ifCond` registered with Handlebars.
 * Numbers are modelled as reals; `Math.round` is written out explicitly.
 */
module Helpers {
  import opened Js

  /** `Math.round`: the nearest integer, with halves rounded towards +infinity. */
  function MathRound(x: real): (k: int)
    ensures k as real - 0.5 <= x < k as real + 0.5
  {
    (x + 0.5).Floor
  }

  /** Only one integer lies in the half-open window around `x`, so `MathRound` is determined by its contract. */
  lemma MathRoundUnique(x: real, k: int)
    requires k as real - 0.5 <= x < k as real + 0.5
    ensures MathRound(x) == k
  {
  }

  /** The `round` helper, `Math.round(number) / 100`: hundredths of the nearest whole number. */
  function Round(n: real): (r: real)
    ensures (r * 100.0).Floor as real == r * 100.0
    ensures n - 0.5 < r * 100.0 <= n + 0.5
  {
    MathRound(n) as real / 100.0
  }

  /** A whole number `k` is scaled by exactly one hundredth, never rounded away. */
  lemma RoundOfWhole(k: int)
    ensures Round(k as real) == k as real / 100.0
  {
  }

  /** Concrete values: 250 gives 2.5, 99 gives 0.99, and halves go up. */
  lemma RoundExamples()
    ensures Round(250.0) == 2.5
    ensures Round(99.0) == 0.99
    ensures Round(99.5) == 1.0
    ensures Round(-2.5) == -0.02
  {
  }

  /** Which sub-template of an `ifCond` block Handlebars renders. */
  datatype Branch = Fn | Inverse

  /** The sub-template chosen and the context it is rendered against. */
  datatype Block = Block(branch: Branch, context: Value)

  /** `this` at the top level of the module: its still-empty `module.exports`. */
  const ModuleThis: Value := Obj(map[])

  /**
   * `ifCond` as written: an arrow function, so `options.fn(this)` and
   * `options.inverse(this)` pass the module's `this`, not the caller's context.
   */
  function IfCondAsWritten(v1: real, v2: real, current: Value): (b: Block)
    ensures b.branch == Fn <==> v1 > v2
    ensures b.context == ModuleThis
  {
    Block(if v1 > v2 then Fn else Inverse, ModuleThis)
  }

  /** `ifCond` as Handlebars helpers are meant to behave: the block sees the current context. */
  function IfCond(v1: real, v2: real, current: Value): (b: Block)
    ensures b.branch == Fn <==> v1 > v2
    ensures b.context == current
  {
    Block(if v1 > v2 then Fn else Inverse, current)
  }

  /** A tie and the reversed comparison both select `inverse`; only strictly greater selects `fn`. */
  lemma IfCondStrict(v1: real, v2: real, current: Value)
    ensures IfCond(v1, v1, current).branch == Inverse
    ensures IfCond(v1, v2, current).branch == Fn ==> IfCond(v2, v1, current).branch == Inverse
    ensures IfCond(v1, v2, current).branch == Inverse && IfCond(v2, v1, current).branch == Inverse ==> v1 == v2
    ensures IfCondAsWritten(v1, v2, current).branch == IfCond(v1, v2, current).branch
  {
  }

  /**
   * The block of the as-written helper loses the enclosing context: an entry's
   * `amount` is not visible inside it, whereas the corrected helper keeps it.
   */
  lemma IfCondAsWrittenLosesContext()
    ensures var entry := Obj(map["amount" := Num("1000")]);
            && IfCondAsWritten(5.0, 3.0, entry) == Block(Fn, Obj(map[]))
            && IfCondAsWritten(5.0, 3.0, entry).context != entry
            && IfCond(5.0, 3.0, entry) == Block(Fn, entry)
  {
    var entry := Obj(map["amount" := Num("1000")]);
    assert "amount" in entry.fields;
  }
}

=== FILE: js.dfy ===
/**
 * The JavaScript values a JSON request body can hold, and the few pieces of
 * JavaScript semantics the normaliser relies on: property reads, truthiness
 * (`||`), template-literal conversion and the TypeErrors that abort a request.
 */
module Js {
  import opened Wrappers
  import Text

  /**
   * A JSON value. A number is kept as the text JavaScript prints for it
   * (`Num("1000")`), since the model never does arithmetic on amounts.
   * An absent property is not a value: property reads return `Option<Value>`.
   */
  datatype Value =
    | Null
    | Bool(b: bool)
    | Num(text: string)
    | Str(s: string)
    | Arr(items: seq<Value>)
    | Obj(fields: map<string, Value>)

  /** A JavaScript object, such as a transaction record or a normalised entry. */
  type Object = map<string, Value>

  /** The two values whose property reads throw. */
  datatype Nullish = Undefined | NullValue

  /** The TypeErrors the request handler can raise while building the render context. */
  datatype Fault =
    | CannotRead(base: Nullish, property: string)  // reading `property` of undefined or null
    | NotAFunction(callee: string)                 // calling `callee` on a value that lacks it
    | NoPrimitive                                  // converting an object that has no usable `toString`

  /** `o.key` for an object: `None` when the property is absent (undefined). */
  function Get(o: Object, key: string): Option<Value> {
    if key in o then Some(o[key]) else None
  }

  /** `v?.key`: undefined when `v` is undefined or null, or is not an object holding `key`. */
  function Chain(v: Option<Value>, key: string): Option<Value> {
    match v
    case Some(Obj(fields)) => Get(fields, key)
    case _ => None
  }

  /** JavaScript truthiness; `Num("0")` is the number zero and `Num("NaN")` is NaN. */
  predicate Truthy(v: Value) {
    match v
    case Null => false
    case Bool(b) => b
    case Num(text) => text != "0" && text != "NaN"
    case Str(s) => s != ""
    case Arr(_) => true
    case Obj(_) => true
  }

  /**
   * Whether `${v}` can convert `v` without throwing. A JSON object with its own
   * `toString` key shadows `Object.prototype.toString` with a value that is not
   * callable, and its `valueOf` gives back the object, so conversion throws;
   * an array converts its elements.
   */
  predicate Convertible(v: Value)
    decreases v
  {
    match v
    case Obj(fields) => "toString" !in fields
    case Arr(items) => forall i :: 0 <= i < |items| ==> Convertible(items[i])
    case _ => true
  }

  /** The string `${v}` produces for a present value, or the TypeError it throws. */
  function Show(v: Value): (r: Result<string, Fault>)
    ensures r.Ok? <==> Convertible(v)
    ensures r.Err? ==> r.error == NoPrimitive
    ensures v.Null? ==> r == Ok("null")
    ensures v.Bool? ==> r == Ok(if v.b then "true" else "false")
    ensures v.Num? ==> r == Ok(v.text)
    ensures v.Str? ==> r == Ok(v.s)
    ensures v.Obj? && r.Ok? ==> r.value == "[object Object]"
    ensures v.Arr? && v.items == [] ==> r == Ok("")
    decreases v, 1
  {
    match v
    case Null => Ok("null")
    case Bool(b) => Ok(if b then "true" else "false")
    case Num(text) => Ok(text)
    case Str(s) => Ok(s)
    case Obj(fields) => if "toString" in fields then Err(NoPrimitive) else Ok("[object Object]")
    case Arr(items) => ShowItems(v, 0)
  }

  /**
   * `Array.prototype.join(",")` over the elements of the array `v` from index `i`:
   * elements converted left to right, null as the empty string.
   */
  function ShowItems(v: Value, i: nat): (r: Result<string, Fault>)
    requires v.Arr? && i <= |v.items|
    ensures r.Ok? <==> forall j :: i <= j < |v.items| ==> Convertible(v.items[j])
    ensures r.Err? ==> r.error == NoPrimitive
    decreases v, 0, |v.items| - i
  {
    if i == |v.items| then Ok("")
    else
      var text :- if v.items[i].Null? then Ok("") else Show(v.items[i]);
      if i + 1 == |v.items| then Ok(text)
      else
        var rest :- ShowItems(v, i + 1);
        Ok(text + "," + rest)
  }

  /** The text an array element contributes to the array's text: null contributes nothing. */
  function ElementText(x: Value): string
    requires Convertible(x)
  {
    if x.Null? then "" else Show(x).value
  }

  /** The texts of all elements of a convertible array, in order. */
  function ElementTexts(items: seq<Value>): (texts: seq<string>)
    requires forall k :: 0 <= k < |items| ==> Convertible(items[k])
    ensures |texts| == |items|
    ensures forall k :: 0 <= k < |items| ==> texts[k] == ElementText(items[k])
  {
    seq(|items|, k requires 0 <= k < |items| => ElementText(items[k]))
  }

  /** From index i on, the array's text is its element texts joined with commas. */
  lemma {:induction false} ShowItemsJoin(v: Value, i: nat)
    requires v.Arr? && i < |v.items|
    requires Convertible(v)
    ensures ShowItems(v, i) == Ok(Text.Join(ElementTexts(v.items)[i..], ','))
    decreases |v.items| - i
  {
    var texts := ElementTexts(v.items);
    if i + 1 < |v.items| {
      ShowItemsJoin(v, i + 1);
      assert texts[i..][1..] == texts[i + 1..];
    }
  }

  /**
   * `${v}` for a non-empty convertible array: `Array.prototype.join(",")`, so
   * `[1, null, ["a", "b"]]` prints as `1,,a,b`.
   */
  lemma ShowArrayJoin(v: Value)
    requires v.Arr? && |v.items| > 0
    requires Convertible(v)
    ensures Show(v) == Ok(Text.Join(ElementTexts(v.items), ','))
  {
    ShowItemsJoin(v, 0);
    assert ElementTexts(v.items)[0..] == ElementTexts(v.items);
  }

  /** The nested example: a number, a null and an array of two strings. */
  lemma ShowArrayExample()
    ensures Show(Arr([Num("1"), Null, Arr([Str("a"), Str("b")])])) == Ok("1,,a,b")
  {
    var inner := Arr([Str("a"), Str("b")]);
    var v := Arr([Num("1"), Null, inner]);
    ShowArrayJoin(inner);
    var innerTexts: seq<string> := ["a", "b"];
    assert ElementTexts(inner.items) == innerTexts;
    assert innerTexts[1..] == ["b"];
    assert Text.Join(innerTexts, ',') == "a" + [','] + "b" == "a,b";
    ShowArrayJoin(v);
    var texts: seq<string> := ["1", "", "a,b"];
    assert ElementTexts(v.items) == texts;
    assert texts[1..] == ["", "a,b"] && texts[1..][1..] == ["a,b"];
    assert Text.Join(texts, ',') == "1" + [','] + ("" + [','] + "a,b") == "1,,a,b";
  }

  /** The string `${x.key}` produces: `"undefined"` when the property is absent. */
  function Interpolate(p: Option<Value>): Result<string, Fault> {
    match p
    case None => Ok("undefined")
    case Some(v) => Show(v)
  }
}

=== FILE: request.dfy ===
/**
 * The POST handler's control flow around the context assembler. Launching the
 * browser, compiling the template and exporting the PDF happen outside the
 * model and arrive as parameters.
 */
module Request {
  import opened Wrappers
  import opened Js
  import opened Context

  /** What the handler's `catch` turns into an error response. */
  datatype Failure =
    | Thrown(fault: Fault)        // a TypeError while assembling the context
    | External(message: string)   // a failure of the browser, the template or the file system

  /** The JSON body sent back, or no response at all. */
  datatype Response = Worked(data: string) | Failed(error: Failure) | NoReply

  /**
   * One request. `launchError` is the browser launch's failure, if any; `render`
   * compiles the template; `exportPdf` loads the markup, prints the PDF and returns
   * its base64 text. An empty rendering sends nothing back.
   */
  function Handle(
    launchError: Option<string>,
    data: Option<Value>,
    render: RenderContext -> Result<string, string>,
    exportPdf: string -> Result<string, string>): (r: Response)
    ensures r.Worked? ==>
              && launchError.None?
              && Assemble(data).Ok?
              && render(Assemble(data).value).Ok?
              && render(Assemble(data).value).value != ""
              && exportPdf(render(Assemble(data).value).value) == Ok(r.data)
    ensures launchError.Some? ==> r == Failed(External(launchError.value))
    ensures launchError.None? && Assemble(data).Err? ==> r == Failed(Thrown(Assemble(data).error))
    ensures launchError.None? && Assemble(data).Ok? && render(Assemble(data).value).Err? ==>
              r == Failed(External(render(Assemble(data).value).error))
    ensures launchError.None? && Assemble(data).Ok? && render(Assemble(data).value).Ok? ==>
              var html := render(Assemble(data).value).value;
              && (html == "" ==> r == NoReply)
              && (html != "" && exportPdf(html).Ok? ==> r == Worked(exportPdf(html).value))
              && (html != "" && exportPdf(html).Err? ==> r == Failed(External(exportPdf(html).error)))
    ensures r.NoReply? ==> Assemble(data).Ok? && render(Assemble(data).value) == Ok("")
  {
    if launchError.Some? then Failed(External(launchError.value))
    else
      match Assemble(data)
      case Err(fault) => Failed(Thrown(fault))
      case Ok(context) =>
        match render(context)
        case Err(message) => Failed(External(message))
        case Ok(html) =>
          if html == "" then NoReply
          else
            match exportPdf(html)
            case Err(message) => Failed(External(message))
            case Ok(base64) => Worked(base64)
  }
}

=== FILE: text.dfy ===
/**
 * The string operations the transaction normaliser applies: ASCII lower-casing
 * (`toLowerCase`), cutting at a separator (`split`) and the currency sign.
 */
module Text {

  /** The naira sign, U+20A6, that prefixes the credit and debit amounts. */
  const Naira: string := "\U{20A6}"

  /** The separator between the date and the time of an ISO-8601 date-time. */
  const DateTimeSeparator: char := 'T'

  predicate IsUpper(c: char) {
    'A' <= c <= 'Z'
  }

  function LowerChar(c: char): char {
    if IsUpper(c) then (c as int - 'A' as int + 'a' as int) as char else c
  }

  /** `toLowerCase`, restricted to the ASCII letters. */
  function Lower(s: string): (r: string)
    ensures |r| == |s|
    ensures forall i :: 0 <= i < |s| ==> r[i] == LowerChar(s[i])
  {
    if s == [] then [] else [LowerChar(s[0])] + Lower(s[1..])
  }

  /** Lower-casing leaves no upper-case letter, touches nothing else, and is idempotent. */
  lemma LowerProperties(s: string)
    ensures forall i :: 0 <= i < |s| ==> !IsUpper(Lower(s)[i])
    ensures forall i :: 0 <= i < |s| && !IsUpper(s[i]) ==> Lower(s)[i] == s[i]
    ensures Lower(Lower(s)) == Lower(s)
  {
  }

  /** The text of `s` before the first `sep`, or all of `s` when `sep` does not occur. */
  function BeforeFirst(s: string, sep: char): (r: string)
    ensures r <= s
    ensures sep !in r
    ensures |r| < |s| ==> s[|r|] == sep
  {
    if s == [] then []
    else if s[0] == sep then []
    else [s[0]] + BeforeFirst(s[1..], sep)
  }

  /** The three properties of `BeforeFirst` determine its result: no other prefix has them. */
  lemma BeforeFirstUnique(s: string, sep: char, p: string)
    requires p <= s
    requires sep !in p
    requires |p| < |s| ==> s[|p|] == sep
    ensures p == BeforeFirst(s, sep)
  {
  }

  /** `s.split(sep)` for a one-character separator: the pieces between the separators. */
  function Split(s: string, sep: char): (parts: seq<string>)
    ensures |parts| >= 1
    ensures parts[0] == BeforeFirst(s, sep)
    ensures forall i :: 0 <= i < |parts| ==> sep !in parts[i]
    decreases |s|
  {
    var p := BeforeFirst(s, sep);
    if |p| == |s| then [s] else [p] + Split(s[|p| + 1..], sep)
  }

  /** `parts.join(sep)`. */
  function Join(parts: seq<string>, sep: char): string
    requires |parts| >= 1
  {
    if |parts| == 1 then parts[0] else parts[0] + [sep] + Join(parts[1..], sep)
  }

  /** Joining the pieces of a split with the same separator gives back the original string. */
  lemma {:induction false} SplitJoin(s: string, sep: char)
    ensures Join(Split(s, sep), sep) == s
    decreases |s|
  {
    var p := BeforeFirst(s, sep);
    if |p| < |s| {
      var rest := s[|p| + 1..];
      var parts := Split(s, sep);
      assert parts == [p] + Split(rest, sep);
      assert parts[1..] == Split(rest, sep);
      SplitJoin(rest, sep);
      assert s == p + [sep] + rest;
    }
  }

  /** An ISO date-time cut at `T` gives its date. */
  lemma DatePartOfDateTime(date: string, time: string)
    requires DateTimeSeparator !in date
    ensures Split(date + [DateTimeSeparator] + time, DateTimeSeparator)[0] == date
  {
    var s := date + [DateTimeSeparator] + time;
    BeforeFirstUnique(s, DateTimeSeparator, date);
  }
}

=== FILE: transactions.dfy ===
/**
 * The transaction normaliser: the `map` body the request handler applies to
 * each of the vault, float and plans transaction lists. Each record is copied
 * with its `desc`, `created_at`, `credit` and `debit` properties rewritten.
 */
module Transactions {
  import opened Wrappers
  import opened Js
  import opened Text

  /** The properties the normaliser writes over the copied record; every other one is copied. */
  const Derived: set<string> := {"desc", "created_at", "credit", "debit"}

  /** `(x.desc || "").toLowerCase()`: a truthy non-string has no `toLowerCase`. */
  function DescOf(desc: Option<Value>): Result<string, Fault> {
    if desc.None? || !Truthy(desc.value) then Ok("")
    else if desc.value.Str? then Ok(Lower(desc.value.s))
    else Err(NotAFunction("toLowerCase"))
  }

  /** `x.created_at.split("T")[0]`: only a string can be split. */
  function DayOf(createdAt: Option<Value>): Result<string, Fault> {
    match createdAt
    case None => Err(CannotRead(Undefined, "split"))
    case Some(Null) => Err(CannotRead(NullValue, "split"))
    case Some(Str(s)) => Ok(Split(s, DateTimeSeparator)[0])
    case Some(_) => Err(NotAFunction("split"))
  }

  /**
   * `x.description === tag ? `₦${x.amount}` : null`: the amount is converted to
   * text only for a matching description, and that conversion can throw.
   */
  function Signed(x: Object, tag: string): Result<Value, Fault> {
    if Get(x, "description") == Some(Str(tag)) then
      var amount :- Interpolate(Get(x, "amount"));
      Ok(Str(Naira + amount))
    else Ok(Null)
  }

  /** The object literal `{...x, desc, created_at, credit, debit}`: later properties win. */
  function Overwrite(x: Object, desc: string, day: string, credit: Value, debit: Value): Object {
    x + map[
      "desc" := Str(desc),
      "created_at" := Str(day),
      "credit" := credit,
      "debit" := debit]
  }

  /** Whether `x.description` is one of the two tags that make the handler print the amount. */
  predicate PrintsAmount(x: Object) {
    Get(x, "description") == Some(Str("credit")) || Get(x, "description") == Some(Str("debit"))
  }

  /** What the handler needs of a record for the normaliser not to throw. */
  predicate Normalizable(x: Value) {
    && x.Obj?
    && (Get(x.fields, "desc").None? || !Truthy(x.fields["desc"]) || x.fields["desc"].Str?)
    && Get(x.fields, "created_at").Some? && x.fields["created_at"].Str?
    && (PrintsAmount(x.fields) && Get(x.fields, "amount").Some? ==> Convertible(x.fields["amount"]))
  }

  /** The shape of a normalised entry: text `desc` and `created_at`, at most one of `credit`/`debit` set. */
  predicate IsEntry(e: Object) {
    && Derived <= e.Keys
    && e["desc"].Str?
    && e["created_at"].Str?
    && (e["credit"].Null? || e["credit"].Str?)
    && (e["debit"].Null? || e["debit"].Str?)
    && (e["credit"].Null? || e["debit"].Null?)
  }

  /** One application of the `map` body, `({...x, desc, created_at, credit, debit})`. */
  function Normalize(x: Value): (r: Result<Object, Fault>)
    ensures r.Ok? <==> Normalizable(x)
    ensures r.Ok? ==> IsEntry(r.value)
    ensures r.Ok? ==> r.value.Keys == x.fields.Keys + Derived
    ensures r.Ok? ==> forall k :: k in x.fields && k !in Derived ==> r.value[k] == x.fields[k]
    ensures x.Null? ==> r == Err(CannotRead(NullValue, "desc"))
    ensures x.Obj? && "created_at" !in x.fields && DescOf(Get(x.fields, "desc")).Ok? ==>
              r == Err(CannotRead(Undefined, "split"))
  {
    match x
    case Null => Err(CannotRead(NullValue, "desc"))
    case Obj(fields) =>
      var desc :- DescOf(Get(fields, "desc"));
      var day :- DayOf(Get(fields, "created_at"));
      var credit :- Signed(fields, "credit");
      var debit :- Signed(fields, "debit");
      Ok(Overwrite(fields, desc, day, credit, debit))
    case _ =>
      // a primitive or an array has no `created_at`, so `split` is read of undefined
      Err(CannotRead(Undefined, "split"))
  }

  /** A record that normalises is its own properties overwritten by the four derived values. */
  lemma NormalizeUnfolded(x: Value)
    requires Normalize(x).Ok?
    ensures x.Obj?
    ensures DescOf(Get(x.fields, "desc")).Ok? && DayOf(Get(x.fields, "created_at")).Ok?
    ensures Signed(x.fields, "credit").Ok? && Signed(x.fields, "debit").Ok?
    ensures Normalize(x).value == Overwrite(x.fields,
              DescOf(Get(x.fields, "desc")).value, DayOf(Get(x.fields, "created_at")).value,
              Signed(x.fields, "credit").value, Signed(x.fields, "debit").value)
  {
  }

  /** `credit` carries the naira-prefixed amount exactly for a credit record, `debit` for a debit one. */
  lemma CreditDebit(x: Value)
    requires Normalize(x).Ok?
    ensures var e := Normalize(x).value;
            var text := Interpolate(Get(x.fields, "amount"));
            && (e["credit"] != Null <==> Get(x.fields, "description") == Some(Str("credit")))
            && (e["debit"] != Null <==> Get(x.fields, "description") == Some(Str("debit")))
            && (e["credit"] != Null ==> text.Ok? && e["credit"] == Str(Naira + text.value))
            && (e["debit"] != Null ==> text.Ok? && e["debit"] == Str(Naira + text.value))
  {
    NormalizeUnfolded(x);
  }

  /**
   * A credit or debit record whose `desc` and `created_at` pass but whose
   * `amount` cannot be converted to text aborts normalisation with the
   * conversion TypeError.
   */
  lemma UnprintableAmountFails(x: Value)
    requires x.Obj? && PrintsAmount(x.fields)
    requires Get(x.fields, "amount").Some? && !Convertible(x.fields["amount"])
    requires DescOf(Get(x.fields, "desc")).Ok? && DayOf(Get(x.fields, "created_at")).Ok?
    ensures Normalize(x) == Err(NoPrimitive)
  {
  }

  /** For instance, `{"description": "credit", "amount": {"toString": 1}, "created_at": "2024-01-01"}`. */
  lemma UnprintableAmountExample()
    ensures var x := Obj(map[
              "description" := Str("credit"),
              "amount" := Obj(map["toString" := Num("1")]),
              "created_at" := Str("2024-01-01")]);
            Normalize(x) == Err(NoPrimitive)
  {
  }

  /** Any other description, or none, leaves both `credit` and `debit` null. */
  lemma NeitherCreditNorDebit(x: Value)
    requires Normalize(x).Ok?
    requires Get(x.fields, "description") != Some(Str("credit"))
    requires Get(x.fields, "description") != Some(Str("debit"))
    ensures Normalize(x).value["credit"] == Null && Normalize(x).value["debit"] == Null
  {
    NormalizeUnfolded(x);
  }

  /** The normalised `created_at` is the part of the original before the first `T`. */
  lemma CreatedAtIsDate(x: Value)
    requires Normalize(x).Ok?
    ensures var s := x.fields["created_at"].s;
            var e := Normalize(x).value;
            && e["created_at"].Str?
            && e["created_at"].s <= s
            && DateTimeSeparator !in e["created_at"].s
            && (|e["created_at"].s| < |s| ==> s[|e["created_at"].s|] == DateTimeSeparator)
            && (DateTimeSeparator !in s ==> e["created_at"].s == s)
  {
    NormalizeUnfolded(x);
  }

  /** The normalised `desc` is the lower-cased original, and empty when the original is missing or falsy. */
  lemma DescLowered(x: Value)
    requires Normalize(x).Ok?
    ensures var e := Normalize(x).value;
            && e["desc"].Str?
            && (Get(x.fields, "desc").None? || !Truthy(x.fields["desc"]) ==> e["desc"].s == "")
            && (Get(x.fields, "desc").Some? && x.fields["desc"].Str? ==>
                  && |e["desc"].s| == |x.fields["desc"].s|
                  && forall i :: 0 <= i < |e["desc"].s| ==>
                       e["desc"].s[i] == LowerChar(x.fields["desc"].s[i]) && !IsUpper(e["desc"].s[i]))
  {
    NormalizeUnfolded(x);
  }

  /** A normalised `desc` is already lower-case, so it normalises to itself. */
  lemma DescStable(x: Value)
    requires Normalize(x).Ok?
    ensures DescOf(Get(Normalize(x).value, "desc")) == Ok(Normalize(x).value["desc"].s)
  {
    NormalizeUnfolded(x);
    LowerProperties(if Get(x.fields, "desc").Some? && x.fields["desc"].Str? then x.fields["desc"].s else "");
  }

  /** A normalised `created_at` holds no `T`, so cutting it again keeps all of it. */
  lemma DayStable(x: Value)
    requires Normalize(x).Ok?
    ensures DayOf(Get(Normalize(x).value, "created_at")) == Ok(Normalize(x).value["created_at"].s)
  {
    NormalizeUnfolded(x);
  }

  /** `description` and `amount` are copied, so `credit` and `debit` come out the same again. */
  lemma SignedStable(x: Value)
    requires Normalize(x).Ok?
    ensures Signed(Normalize(x).value, "credit") == Ok(Normalize(x).value["credit"])
    ensures Signed(Normalize(x).value, "debit") == Ok(Normalize(x).value["debit"])
  {
    NormalizeUnfolded(x);
    assert Get(Normalize(x).value, "description") == Get(x.fields, "description");
    assert Get(Normalize(x).value, "amount") == Get(x.fields, "amount");
  }

  /** Writing an entry's own derived values over it gives the entry back. */
  lemma OverwriteFixed(e: Object)
    requires IsEntry(e)
    ensures Overwrite(e, e["desc"].s, e["created_at"].s, e["credit"], e["debit"]) == e
  {
  }

  /** Normalising an entry a second time changes nothing: every derived property is already in its final form. */
  lemma NormalizeIdempotent(x: Value)
    requires Normalize(x).Ok?
    ensures Normalize(Obj(Normalize(x).value)) == Ok(Normalize(x).value)
  {
    var e := Normalize(x).value;
    DescStable(x);
    DayStable(x);
    SignedStable(x);
    OverwriteFixed(e);
  }

  /**
   * `xs.map(...)`: every record normalised in order. The result keeps length and
   * order, entry i comes from record i alone, and the first record that throws
   * aborts the whole list.
   */
  function NormalizeAll(xs: seq<Value>): (r: Result<seq<Object>, Fault>)
    ensures r.Ok? <==> forall i :: 0 <= i < |xs| ==> Normalize(xs[i]).Ok?
    ensures r.Ok? ==> |r.value| == |xs|
    ensures r.Ok? ==> forall i :: 0 <= i < |xs| ==> Normalize(xs[i]) == Ok(r.value[i])
    ensures r.Err? ==> exists i :: 0 <= i < |xs| && Normalize(xs[i]) == Err(r.error)
                                   && forall j :: 0 <= j < i ==> Normalize(xs[j]).Ok?
  {
    if xs == [] then Ok([])
    else
      var e :- Normalize(xs[0]);
      var es :- NormalizeAll(xs[1..]);
      Ok([e] + es)
  }
}

=== FILE: wrappers.dfy ===
/** Option and Result, the failure-compatible wrappers the rest of the model uses. */
module Wrappers {

  /** A value that may be missing: a JavaScript property that is absent reads as `None`. */
  datatype Option<+T> = None | Some(value: T)

  /** The outcome of a computation that may throw: `Err` carries what was thrown. */
  datatype Result<+T, +E> = Ok(value: T) | Err(error: E) {

    predicate IsFailure() {
      Err?
    }

    function PropagateFailure<U>(): Result<U, E>
      requires Err?
    {
      Err(error)
    }

    function Extract(): T
      requires Ok?
    {
      value
    }
  }
}
